=== FILE: README.md ===
# ObjectsPool bookkeeping, modelled in Dafny

This project models the pooling logic of `Game.ObjectPool`, a generic Unity
object pool. Instances are recycled instead of destroyed. Each acquired
instance gets an `info` payload and moves between the states Released and Got.

The model is one immutable record, `Pool.PoolState`. Every operation is a pure
function from one record to the next. The only exceptions are the two loops,
`Awake` and `ReleaseAll`, which are methods. The record holds:

- the pool's identity, serialized settings (`Config`) and container
  configuration (`PoolBase.Containers`);
- the instances, as ids mapped to an `Instance`: the pooled-object facet
  (`PooledObject.Facet`: state, info, origin pool), the active flag, the
  parent container, a `zeroed` flag for "local position set to zero", and a
  `destroyed` flag;
- `elementsGot`, the ordered list of acquired instances;
- `idle`, the idle stack of the backing store;
- `trace`, the ordered record of calls into the hooks: `OnGet`, `OnRelease`,
  `ResetValues`, `Generated` and `OnItemGenerated`.

The backing store is Unity's `UnityEngine.Pool.ObjectPool<T>`. Its source is
not part of this model. Its behaviour is stated as an assumed contract in
`BackingGet` and `BackingRelease`, inferred from how the pool wires it up
(Runtime/Pool.cs:38-45):

- `Get` pops the most recently released idle element, or creates a fresh id
  when nothing is idle. It then runs `OnGet`.
- `Release` faults when the collection check is on and the element is already
  idle. Otherwise it runs `OnRelease` and keeps the element idle only while
  fewer than `maxSize` are idle. No destroy action is wired, so an element
  over the limit is simply dropped.

The collection-check exception is modelled as a `Failure` result. It leaves
the backing store untouched.

In a few places the code does less than its names suggest. This model
follows the code:

- `ReleaseAll` (Runtime/Pool.cs:130) and the object's own `Release()`
  (Runtime/PooledObject.cs:38) hand the object straight to the backing store.
  Only the pool's private `Release` (Runtime/Pool.cs:75-86) sets state Released
  and calls `ResetValues`. So after `ReleaseAll` or a self-release, an object
  that has left `elementsGot` is still in state Got. `ReleaseAll`'s contract
  and the lemma `PoolProperties.GenerateThenSelfRelease` state this. As a
  result, "state is Got exactly when the object is acquired" is not an
  invariant of the code. `Pool.Valid` keeps only the direction that does
  hold: every acquired object is Got.
- `Generate` passes the pool reference on every acquisition, not only the
  first (Runtime/Pool.cs:112).
- A self-release calls `ResetValues` before the backing-store release. The
  private `Release` calls it after.

## Model

| member | source | states |
|---|---|---|
| PoolBase.Serialized | Runtime/PoolBase.cs:7-13 | both "fixed" flags default to true |
| PoolBase.OnReleasedContainer | Runtime/PoolBase.cs:9 | the released-container is the stored one when its flag is fixed, and null otherwise |
| PoolBase.OnGetContainer | Runtime/PoolBase.cs:13 | the get-container is the stored one when its flag is fixed, and null otherwise |
| PoolBase.CustomReleasedContainer | Runtime/PoolBase.cs:18-22 | afterwards the released-container is exactly the argument; the get-container's flag and reference are unchanged |
| PoolBase.CustomGetContainer | Runtime/PoolBase.cs:28-32 | afterwards the get-container is exactly the argument; the released-container's flag and reference are unchanged |
| PoolBase.CustomReleasedContainerIdempotent | Runtime/PoolBase.cs:18-22 | setting the same released-container override twice gives the same configuration as setting it once |
| PoolBase.CustomGetContainerIdempotent | Runtime/PoolBase.cs:28-32 | setting the same get-container override twice gives the same configuration as setting it once |
| PoolBase.CustomContainersCommute | Runtime/PoolBase.cs:18-32 | the two overrides touch separate fields, so their order does not matter |
| PooledObject.Initial | Runtime/PooledObject.cs:8-17 | a new object is Released (the first enum member) and has no info and no pool |
| PooledObject.ProvidePool | Runtime/PooledObject.cs:19-22 | sets only the origin-pool reference; state and info are unchanged |
| PooledObject.ProvideInfo | Runtime/PooledObject.cs:24-27 | sets only the info; state and pool reference are unchanged |
| PooledObject.SetState | Runtime/PooledObject.cs:49-52 | sets only the state; the other setters never change it |
| PooledObject.Dispose | Runtime/PooledObject.cs:37-40 | Release() returns the object to its pool exactly when a pool is recorded, and destroys it otherwise |
| PooledObject.ProvidersCommute | Runtime/PooledObject.cs:19-27 | providing the pool and providing the info do not interfere |
| PooledObject.SetStateUndo | Runtime/PooledObject.cs:49-52 | setting a state and then the previous one restores the facet |
| Pool.IndexOf | Runtime/Pool.cs:96 | List.Remove finds the first occurrence: that index holds the element and nothing before it does |
| Pool.RemoveFirst | Runtime/Pool.cs:96 | List.Remove drops exactly one occurrence when present, keeps every other entry in order, and changes nothing when absent |
| Pool.Create | Runtime/Pool.cs:56-59 | Instantiate yields an id not yet in the instance table, carrying the prefab's active flag and a fresh facet, and leaves both lists alone |
| Pool.OnGet | Runtime/Pool.cs:61-73 | appends the object at the end of elementsGot; reparents only when a get-container is in force; zeroes the position; marks a pooled object Got and changes no other object |
| Pool.OnRelease | Runtime/Pool.cs:88-97 | removes one occurrence from elementsGot; deactivates and zeroes the object; reparents only when a released-container is in force; leaves its facet alone |
| Pool.BackingGet | Runtime/Pool.cs:38-45 | assumed Get: reuses the newest idle element, or creates a fresh one when none is idle. Either way OnGet runs on it: zeroed, under the get-container when one is in force, Got when pooled, with its active and destroyed flags unchanged |
| Pool.BackingRelease | Runtime/Pool.cs:38-45 | assumed Release: faults exactly when the check is on and the element is idle; otherwise OnRelease runs and the element is kept only below maxSize |
| Pool.ReleaseItem | Runtime/Pool.cs:75-86 | private Release: the backing-store release happens first; only after it does a pooled object become Released and get ResetValues |
| Pool.WarmUpOne | Runtime/Pool.cs:50-54 | one Release(Create()): a fresh instance ends Released and reset; it is never acquired and is idle if there is room |
| Pool.WarmUpStep | Runtime/Pool.cs:50-54 | each warm-up iteration adds exactly one new warmed instance and keeps elementsGot empty |
| Pool.WarmedUpIsValid | Runtime/Pool.cs:50-54 | a warmed-up pool satisfies the pool invariant |
| Pool.Empty | Runtime/Pool.cs:19 | a new pool has no instances and an empty elementsGot, and satisfies the invariant |
| Pool.Awake | Runtime/Pool.cs:34-54 | warm-up creates exactly m_size instances. Each is Released, inactive and reset, and none is acquired. The first min(m_size, maxSize) are idle in creation order |
| Pool.Generate | Runtime/Pool.cs:99-120 | returns the backing store's instance, last in elementsGot, zeroed and under the get-container when one is in force (otherwise where it was). A pooled object becomes Got, with the given active flag, info and this pool, and Generated fires before OnItemGenerated. Any other object is returned with an error tag and its facet and active flag as OnGet left them |
| Pool.DrainStep | Runtime/Pool.cs:128-131 | releasing the last remaining entry moves it from the pending release order to the end of the releases so far |
| Pool.DrainPermutes | Runtime/Pool.cs:128-131 | ReleaseAll's release order hands out every entry exactly as often as it occurs in elementsGot |
| Pool.DrainDistinct | Runtime/Pool.cs:128-131 | on a duplicate-free list, the release order is the list reversed: newest first |
| Pool.RemoveLastOfDistinct | Runtime/Pool.cs:96 | on a duplicate-free list, List.Remove of the last entry drops exactly that entry and leaves the older ones in order |
| Pool.BackingReleaseFrame | Runtime/Pool.cs:130 | a backing-store release changes no facet and no instance-table shape |
| Pool.ReleaseAllStep | Runtime/Pool.cs:126-132 | each ReleaseAll iteration removes exactly one entry, so Count == i + 1 holds at every iteration |
| Pool.ReleaseKeepsValid | Runtime/Pool.cs:38-45 | handing an acquired element of a valid pool to the backing store keeps the pool invariant, whether or not it is kept idle |
| Pool.ReleaseKeepsDisjoint | Runtime/Pool.cs:88-97 | releasing an acquired entry of a duplicate-free list that is apart from the idle store keeps both properties |
| Pool.ReleaseAll | Runtime/Pool.cs:126-132 | ends with elementsGot empty after exactly the initial Count releases, one per entry (as a multiset). The releases follow one fixed order: take the last entry, let List.Remove drop its first occurrence, repeat. The trace records them in that order, and the idle store grows by them in that order up to maxSize; on a fault the releases so far are a prefix of that order. For a duplicate-free list the order is newest first. With duplicates, which the collection check does not rule out here, the first occurrence is removed, so the order differs. Every released object is inactive, zeroed and under the released-container when one is in force. No other instance changes. A fault happens only with the check on, at an entry that is the last one left and already idle. Every object released before a fault is stowed as well. It never faults on a valid pool. No state changes and no ResetValues runs, so released objects stay Got |
| Pool.ReleaseAllEffectsStep | Runtime/Pool.cs:130 | each release in ReleaseAll stows that object and pushes it while the idle store is below maxSize, leaving the others alone |
| Pool.ReleaseFromNewest | Runtime/Pool.cs:128-131 | the loop walks i down from Count - 1; it stops with i = -1 after releasing everything, or at the first entry the backing store refuses as already idle, with the loop invariant holding either way |
| Pool.ReleaseAllStart | Runtime/Pool.cs:128 | before the first iteration nothing is released, the pending release order is the whole order, and the loop invariant holds |
| Pool.ReleaseAllIteration | Runtime/Pool.cs:128-131 | one successful iteration keeps the loop invariant, with its entry appended to the releases so far |
| Pool.ReleaseAllFaulted | Runtime/Pool.cs:130 | a fault in ReleaseAll needs the check on and an already idle entry, which a valid pool rules out; the faulting entry is the last one left; the releases so far plus the order still pending make up the release order, those released are stowed, and untouched instances stay as they were |
| Pool.ReleaseAllFrame | Runtime/Pool.cs:126-132 | instances that were not acquired are untouched by ReleaseAll, even when it stops on a fault |
| Pool.ReleasedAreStowed | Runtime/Pool.cs:128-131 | every object released so far is stowed, whether or not the loop later faults |
| Pool.ReleaseAllStowed | Runtime/Pool.cs:126-132 | once every entry is released, each formerly acquired instance is stowed |
| Pool.ReleaseAllFinished | Runtime/Pool.cs:126-132 | at loop exit: elementsGot is empty, the releases are exactly the release order of the initial list (so the list as a multiset, and the list reversed when it is duplicate-free), and every formerly acquired instance is stowed |
| Pool.SelfRelease | Runtime/PooledObject.cs:33-41 | Release() destroys the object exactly when it has no pool. It returns the object to this pool when that pool is recorded, and faults only on an idle object with the check on. Returning it to another pool leaves this pool's lists, the other instances and the object's facet as they were, and records the ResetValues call |
| Pool.SelfReleaseResetsFirst | Runtime/PooledObject.cs:33-41 | Release() calls ResetValues before anything else and changes neither state nor info |
| Pool.SelfReleaseDestroys | Runtime/PooledObject.cs:40 | with no pool the object is destroyed and the pool's lists are untouched |
| Pool.SelfReleaseReturns | Runtime/PooledObject.cs:37-38 | with this pool recorded, OnRelease runs after ResetValues, one occurrence leaves elementsGot, and the object is idle if there is room |
| Pool.SetCustomReleasedContainer | Runtime/Pool.cs:134-138 | the released-container becomes the argument; nothing else in the pool changes |
| Pool.SetCustomGetContainer | Runtime/Pool.cs:140-144 | the get-container becomes the argument; nothing else in the pool changes |
| PoolProperties.OnGetThenOnRelease | Runtime/Pool.cs:61-97 | OnRelease undoes OnGet's append to elementsGot |
| PoolProperties.OnGetThenOnReleaseList | Runtime/Pool.cs:67 | removing a newly appended element restores the list |
| Pool.RemoveFirstFromDistinct | Runtime/Pool.cs:96 | removing from a duplicate-free list keeps it duplicate-free and drops the element |
| Pool.DropOneFromDistinct | Runtime/Pool.cs:96 | dropping one index of a duplicate-free list keeps it duplicate-free |
| PoolProperties.GenerateKeepsValid | Runtime/Pool.cs:99-120 | Generate keeps the pool invariant |
| PoolProperties.GenerateHandsOutUnacquired | Runtime/Pool.cs:99-101 | in a valid pool, Generate never hands out an instance that is already acquired |
| PoolProperties.GenerateTwiceKeepsInfos | Runtime/Pool.cs:99-120 | two Generate calls return distinct instances in acquisition order, each with its own info, never swapped |
| PoolProperties.GenerateThenSelfRelease | Runtime/PooledObject.cs:33-41 | Generate then Release() restores elementsGot, but the object stays Got and keeps its info |
| PoolProperties.GenerateThenSelfReleaseIdle | Runtime/PooledObject.cs:33-41 | Generate then Release() of a reused instance restores the idle store exactly |
| PoolProperties.GenerateThenReleaseItem | Runtime/Pool.cs:75-86 | Generate then the private Release restores both lists. The object is Released again, and ResetValues runs after OnRelease |
| PoolProperties.SelfReleaseKeepsValid | Runtime/PooledObject.cs:33-41 | with the collection check on, Release() keeps the pool invariant |
| PoolProperties.DoubleReleaseWithoutCheck | Runtime/Pool.cs:43 | with the collection check off, releasing an idle object again stores it twice in the idle store |
| PoolProperties.DoubleReleaseWithCheck | Runtime/Pool.cs:43 | with the collection check on, a second release faults and leaves the backing store unchanged; ResetValues has already run |
| PoolProperties.CustomGetContainerTakesEffect | Runtime/Pool.cs:140-144 | after a get-container override, the next Generate parents the object under it |
| PoolProperties.SerializedGetContainerUsed | Runtime/PoolBase.cs:11-13 | with the serialized default (fixed flag true), acquired objects are parented under the serialized get-container |
| PoolProperties.CustomReleasedContainerTakesEffect | Runtime/Pool.cs:134-138 | after a released-container override, the next release into this pool parents the object under it |
| PoolProperties.SelfReleaseShrinks | Runtime/PooledObject.cs:37-38 | releasing an acquired object with room leaves one fewer acquired and one more idle |
| PoolProperties.ScenarioWarmUp | Runtime/Pool.cs:47-54 | with m_size 3 and maxSize 5, warm-up leaves three idle and none acquired |
| PoolProperties.ScenarioThreeGets | Runtime/Pool.cs:99-120 | three Generate calls reuse the three idle instances |
| PoolProperties.ScenarioFourthGet | Runtime/Pool.cs:99-120 | a fourth Generate with nothing idle creates a fresh instance; releasing it leaves one idle and three acquired |
| PoolProperties.ScenarioThreeFive | Runtime/Pool.cs:34-120 | the full 3/5 scenario, from warm-up through four Generate calls to one release |

## Left out

- Unity's `Instantiate`, `Destroy`, `GetComponent`, `RequireComponent` and
  `OnValidate` are engine lifecycle code. Creation is a fresh id and
  destruction is a `destroyed` flag. `GetBasePool` is a no-op, because the
  container configuration is always present in the record.
- `Transform.SetParent` and `localPosition = Vector3.zero` involve the scene
  graph and float vectors. They are recorded as `parent` and `zeroed`.
- `Debug.LogError` is logging only. It appears as the `GenerationError`
  outcome tag.
- The internals of `UnityEngine.Pool.ObjectPool<T>` are not part of this
  model. Only the get/release contract above is assumed. Its `CountAll`,
  `defaultCapacity` and constructor checks (such as rejecting a non-positive
  `maxSize`) are not modelled, so `size` and `maxSize` are naturals.
- The bodies of `ResetValues`, `Generated` and `OnItemGenerated` are abstract
  or virtual hooks in subtypes. They are uninterpreted events in `trace`.
- Threading, and re-entrant calls into the pool from inside those hooks, are
  left out. The code is single-threaded and has no guards.
- Pool.SelfRelease: returning an object to a pool other than this one is
  reported as `ReturnedToOtherPool`, and that other pool is not modelled. The
  model contains one pool. That pool's `OnRelease` deactivates and zeroes the
  object and may reparent it (Runtime/Pool.cs:90-94), unless its own
  collection check throws first. This effect on the object is not recorded,
  and the contract says nothing about the object's active flag, position or
  parent in that case.
- Pool.ReleaseAll: after a collection-check fault the method returns the
  state reached so far and stops, as the exception would. The contract
  describes that partial state through the releases made so far: the trace,
  the idle store, the release order still pending, the stowed objects and
  the frame facts. It does not list which entries are still in elementsGot,
  only that its last one is the idle entry that faulted.
- Pool.Generate: the `destroyed` flag is carried along but never consulted.
  In the engine, a destroyed object left in the idle store would make `OnGet`
  throw when it is handed out again. The model hands it out like any other,
  because object destruction is abstracted to a flag.

=== FILE: pool.dfy ===
/**
 * The pool itself (Runtime/Pool.cs): the list of acquired elements, the
 * hooks wired into the backing store, warm-up, Generate and ReleaseAll.
 *
 * The whole system is one immutable record, `PoolState`; every operation
 * is a function from one record to the next. Instances are ids; what the
 * engine knows about an instance (active flag, parent, whether its local
 * position was zeroed, whether it was destroyed) and its pooled-object
 * facet live in `objs`. Calls into overridable hooks (ResetValues,
 * Generated, OnItemGenerated) and the two backing-store callbacks are
 * recorded, in order, in `trace`.
 */
module Pool {
  import opened Wrappers
  import opened PooledObject
  import PB = PoolBase

  /** Identity of an instance created from the prefab. */
  type Id = nat

  datatype Instance = Instance(
    facet: Facet,
    active: bool,
    parent: Option<PB.Container>,
    zeroed: bool,
    destroyed: bool)

  /**
   * Serialized settings. `pooled` says whether the prefab's component is a
   * PooledObject; every instance is a copy of the prefab, so the answer is
   * the same for all of them.
   */
  datatype Config = Config(
    pooled: bool,
    prefabActive: bool,
    collectionCheck: bool,
    size: nat,
    maxSize: nat)

  datatype Event =
    | GetHook(item: Id)             // OnGet ran
    | ReleaseHook(item: Id)         // OnRelease ran
    | Reset(item: Id)               // ResetValues() was called
    | GeneratedHook(item: Id)       // Generated() was called
    | ItemGeneratedHook(item: Id)   // OnItemGenerated(item) was called

  /** The backing store's diagnostic: the element is already idle. */
  datatype Fault = AlreadyReleased(item: Id)

  datatype PoolState = PoolState(
    id: PoolId,
    config: Config,
    base: PB.Containers,
    objs: map<Id, Instance>,
    nextId: Id,
    elementsGot: seq<Id>,
    idle: seq<Id>,
    trace: seq<Event>)

  /** An instance handed out together with the state after handing it out. */
  datatype Acquired = Acquired(pool: PoolState, item: Id)

  /** The LogError of Generate, as an outcome tag. */
  datatype GenerateOutcome = Initialized | GenerationError

  datatype Generation = Generation(pool: PoolState, item: Id, outcome: GenerateOutcome)

  datatype SelfReleaseOutcome =
    | Returned(pool: PoolState)
    | ReturnedToOtherPool(pool: PoolState, other: PoolId)
    | DestroyedItself(pool: PoolState)
    | Faulted(pool: PoolState, fault: Fault)
  {
    /** The pool's state after the release, whatever its outcome. */
    function After(): PoolState {
      match this
      case Returned(p) => p
      case ReturnedToOtherPool(p, _) => p
      case DestroyedItself(p) => p
      case Faulted(p, _) => p
    }
  }

  // ---------------------------------------------------------------------
  // Well-formedness

  predicate NoDup(s: seq<Id>) {
    forall i, j :: 0 <= i < j < |s| ==> s[i] != s[j]
  }

  predicate Disjoint(a: seq<Id>, b: seq<Id>) {
    forall x :: x in a ==> x !in b
  }

  /** Every id the pool mentions names a created instance, and fresh ids are unused. */
  predicate Allocated(p: PoolState) {
    && (forall x :: x in p.objs ==> x < p.nextId)
    && (forall x :: x in p.idle ==> x in p.objs)
    && (forall x :: x in p.elementsGot ==> x in p.objs)
  }

  /**
   * The bookkeeping the collection check protects: no element is idle twice,
   * acquired twice, or idle and acquired at once; the idle store respects
   * maxSize; and every acquired pooled object is in state Got.
   */
  predicate Valid(p: PoolState) {
    && Allocated(p)
    && NoDup(p.idle)
    && NoDup(p.elementsGot)
    && Disjoint(p.elementsGot, p.idle)
    && |p.idle| <= p.config.maxSize
    && (p.config.pooled ==> forall x :: x in p.elementsGot ==> p.objs[x].facet.state == Got)
  }

  /** Every instance other than `x` is exactly as it was. */
  predicate OthersUnchanged(p: PoolState, q: PoolState, x: Id) {
    forall y :: y in p.objs && y != x ==> y in q.objs && q.objs[y] == p.objs[y]
  }

  /** Nothing but the instance table, the two lists and the trace changed. */
  predicate SameSetup(p: PoolState, q: PoolState) {
    q.id == p.id && q.config == p.config && q.base == p.base
  }

  /**
   * How OnRelease leaves an instance that looked like `before`: inactive,
   * local position zeroed, under the released-container when one is in
   * force. Its facet is a separate matter.
   */
  predicate Stowed(base: PB.Containers, before: Instance, after: Instance) {
    var container := PB.OnReleasedContainer(base);
    && !after.active && after.zeroed && after.destroyed == before.destroyed
    && after.parent == (if container.Some? then container else before.parent)
  }

  /**
   * How OnGet leaves an instance that looked like `before`: local position
   * zeroed, under the get-container when one is in force, marked Got when
   * the prefab is a pooled object; its active and destroyed flags as they were.
   */
  predicate Fetched(base: PB.Containers, pooled: bool, before: Instance, after: Instance) {
    var container := PB.OnGetContainer(base);
    && after.zeroed && after.active == before.active && after.destroyed == before.destroyed
    && after.parent == (if container.Some? then container else before.parent)
    && after.facet == (if pooled then SetState(before.facet, Got) else before.facet)
  }

  /** Every instance keeps its facet. */
  predicate SameFacets(p: PoolState, q: PoolState) {
    forall y :: y in p.objs ==> y in q.objs && q.objs[y].facet == p.objs[y].facet
  }

  // ---------------------------------------------------------------------
  // List<T>.Remove

  /** Position of the first occurrence of `x`, as List<T>.IndexOf finds it. */
  function IndexOf(s: seq<Id>, x: Id): (i: nat)
    requires x in s
    ensures i < |s| && s[i] == x
    ensures x !in s[..i]
  {
    if s[0] == x then 0
    else
      var i := IndexOf(s[1..], x);
      assert s[..i + 1] == [s[0]] + s[1..][..i];
      i + 1
  }

  /**
   * List<T>.Remove: removes the first occurrence of `x`, keeping every other
   * entry in order; leaves the list alone if `x` is absent.
   */
  function RemoveFirst(s: seq<Id>, x: Id): (r: seq<Id>)
    ensures x !in s ==> r == s
    ensures x in s ==> |r| == |s| - 1
    ensures x in s ==> var i := IndexOf(s, x); r[..i] == s[..i] && r[i..] == s[i + 1..]
    ensures multiset(r) == multiset(s) - multiset{x}
  {
    if x in s then
      var i := IndexOf(s, x);
      assert s == s[..i] + [x] + s[i + 1..];
      s[..i] + s[i + 1..]
    else
      s
  }

  /** Removing an element from a duplicate-free list leaves a duplicate-free list without it. */
  lemma RemoveFirstFromDistinct(s: seq<Id>, x: Id)
    requires NoDup(s)
    ensures NoDup(RemoveFirst(s, x))
    ensures forall y :: y in RemoveFirst(s, x) ==> y in s && y != x
  {
    var r := RemoveFirst(s, x);
    if x in s {
      var i := IndexOf(s, x);
      DropOneFromDistinct(s, i, r);
    }
  }

  /** `r` is `s` without its element at index `i`; if `s` is duplicate-free, so is `r`, and it lacks `s[i]`. */
  lemma DropOneFromDistinct(s: seq<Id>, i: nat, r: seq<Id>)
    requires NoDup(s) && i < |s|
    requires |r| == |s| - 1 && r[..i] == s[..i] && r[i..] == s[i + 1..]
    ensures NoDup(r)
    ensures forall y :: y in r ==> y in s && y != s[i]
  {
    forall k | 0 <= k < |r|
      ensures r[k] == (if k < i then s[k] else s[k + 1])
    {
      if k < i {
        assert r[k] == r[..i][k];
      } else {
        assert r[k] == r[i..][k - i];
      }
    }
    forall a, b | 0 <= a < b < |r|
      ensures r[a] != r[b]
    {
      var a' := if a < i then a else a + 1;
      var b' := if b < i then b else b + 1;
      assert r[a] == s[a'] && r[b] == s[b'] && a' < b';
    }
    forall y | y in r
      ensures y in s && y != s[i]
    {
      var k :| 0 <= k < |r| && r[k] == y;
      var k' := if k < i then k else k + 1;
      assert y == s[k'] && k' != i;
    }
  }

  // ---------------------------------------------------------------------
  // Hooks wired into the backing store (Pool.cs Create, OnGet, OnRelease)

  /** Instantiate(m_prefab): a fresh id carrying a copy of the prefab. */
  function Create(p: PoolState): (r: Acquired)
    requires Allocated(p)
    ensures r.item == p.nextId && r.item !in p.objs
    ensures r.pool.objs == p.objs[r.item := Prefab(p.config)]
    ensures r.pool.nextId == p.nextId + 1
    ensures r.pool.elementsGot == p.elementsGot && r.pool.idle == p.idle && r.pool.trace == p.trace
    ensures SameSetup(p, r.pool) && Allocated(r.pool)
  {
    var x := p.nextId;
    Acquired(p.(objs := p.objs[x := Prefab(p.config)], nextId := x + 1), x)
  }

  /** A fresh copy of the prefab: its active flag, no parent, a fresh facet. */
  function Prefab(config: Config): (o: Instance)
    ensures o.facet == Initial() && o.active == config.prefabActive
    ensures o.parent == None && !o.zeroed && !o.destroyed
  {
    Instance(Initial(), config.prefabActive, None, false, false)
  }

  /** The instance the backing store hands out, as it was before OnGet ran. */
  function Before(p: PoolState, x: Id): Instance {
    if x in p.objs then p.objs[x] else Prefab(p.config)
  }

  /**
   * OnGet: reparent under the get-container when one is configured, zero the
   * local position, append to elementsGot, and mark a pooled object Got.
   */
  function OnGet(p: PoolState, x: Id): (r: PoolState)
    requires x in p.objs
    ensures r.elementsGot == p.elementsGot + [x]
    ensures r.objs.Keys == p.objs.Keys && OthersUnchanged(p, r, x)
    ensures Fetched(p.base, p.config.pooled, p.objs[x], r.objs[x])
    ensures r.idle == p.idle && r.nextId == p.nextId && SameSetup(p, r)
    ensures r.trace == p.trace + [GetHook(x)]
  {
    var o := p.objs[x];
    var container := PB.OnGetContainer(p.base);
    var moved := o.(parent := if container.Some? then container else o.parent, zeroed := true);
    var marked := if p.config.pooled then moved.(facet := SetState(moved.facet, Got)) else moved;
    p.(objs := p.objs[x := marked], elementsGot := p.elementsGot + [x], trace := p.trace + [GetHook(x)])
  }

  /**
   * OnRelease: reparent under the released-container when one is configured,
   * zero the local position, deactivate, and remove one occurrence from
   * elementsGot. The facet is not touched.
   */
  function OnRelease(p: PoolState, x: Id): (r: PoolState)
    requires x in p.objs
    ensures r.elementsGot == RemoveFirst(p.elementsGot, x)
    ensures x in p.elementsGot ==> |r.elementsGot| == |p.elementsGot| - 1
    ensures x !in p.elementsGot ==> r.elementsGot == p.elementsGot
    ensures r.objs.Keys == p.objs.Keys && OthersUnchanged(p, r, x)
    ensures Stowed(p.base, p.objs[x], r.objs[x]) && r.objs[x].facet == p.objs[x].facet
    ensures r.idle == p.idle && r.nextId == p.nextId && SameSetup(p, r)
    ensures r.trace == p.trace + [ReleaseHook(x)]
  {
    var o := p.objs[x];
    var container := PB.OnReleasedContainer(p.base);
    var moved := o.(parent := if container.Some? then container else o.parent, zeroed := true, active := false);
    p.(objs := p.objs[x := moved], elementsGot := RemoveFirst(p.elementsGot, x), trace := p.trace + [ReleaseHook(x)])
  }

  // ---------------------------------------------------------------------
  // UnityEngine.Pool.ObjectPool<T>: ASSUMED contract. Its source is not
  // part of this model; only the behaviour the pool's wiring relies on is
  // stated: Get reuses the most recently released idle element or creates
  // one, then calls OnGet; Release refuses an idle element when the
  // collection check is on, calls OnRelease, and keeps the element idle
  // only while fewer than maxSize are idle (no destroy action is wired).

  function BackingGet(p: PoolState): (r: Acquired)
    requires Allocated(p)
    ensures Allocated(r.pool) && SameSetup(p, r.pool)
    ensures |p.idle| == 0 ==> r.item == p.nextId && r.item !in p.objs && r.pool.nextId == p.nextId + 1 && r.pool.idle == p.idle
    ensures |p.idle| > 0 ==> r.item == p.idle[|p.idle| - 1] && r.pool.nextId == p.nextId && r.pool.idle == p.idle[..|p.idle| - 1]
    ensures r.pool.elementsGot == p.elementsGot + [r.item]
    ensures r.item in r.pool.objs && r.pool.objs.Keys == p.objs.Keys + {r.item}
    ensures OthersUnchanged(p, r.pool, r.item)
    ensures Fetched(p.base, p.config.pooled, Before(p, r.item), r.pool.objs[r.item])
    ensures r.pool.trace == p.trace + [GetHook(r.item)]
  {
    if |p.idle| == 0 then
      var c := Create(p);
      Acquired(OnGet(c.pool, c.item), c.item)
    else
      var x := p.idle[|p.idle| - 1];
      Acquired(OnGet(p.(idle := p.idle[..|p.idle| - 1]), x), x)
  }

  function BackingRelease(p: PoolState, x: Id): (r: Result<PoolState, Fault>)
    requires Allocated(p) && x in p.objs
    ensures r.Failure? <==> p.config.collectionCheck && x in p.idle
    ensures r.Failure? ==> r.error == AlreadyReleased(x)
    ensures r.Success? ==> var q := r.value;
      && Allocated(q) && SameSetup(p, q) && q.nextId == p.nextId
      && q.elementsGot == RemoveFirst(p.elementsGot, x)
      && q.objs.Keys == p.objs.Keys && OthersUnchanged(p, q, x)
      && Stowed(p.base, p.objs[x], q.objs[x]) && q.objs[x].facet == p.objs[x].facet
      && (|p.idle| < p.config.maxSize ==> q.idle == p.idle + [x])
      && (|p.idle| >= p.config.maxSize ==> q.idle == p.idle)
      && q.trace == p.trace + [ReleaseHook(x)]
  {
    if p.config.collectionCheck && x in p.idle then
      Failure(AlreadyReleased(x))
    else
      var q := OnRelease(p, x);
      if |q.idle| < q.config.maxSize then Success(q.(idle := q.idle + [x])) else Success(q)
  }

  // ---------------------------------------------------------------------
  // The pool's own operations

  /**
   * The private Release(T): the backing-store release first; only when it
   * returns does a pooled object get state Released and its ResetValues call.
   */
  function ReleaseItem(p: PoolState, x: Id): (r: Result<PoolState, Fault>)
    requires Allocated(p) && x in p.objs
    ensures r.Failure? <==> p.config.collectionCheck && x in p.idle
    ensures r.Success? ==> var q := r.value;
      && Allocated(q) && SameSetup(p, q) && q.nextId == p.nextId
      && q.elementsGot == RemoveFirst(p.elementsGot, x)
      && q.objs.Keys == p.objs.Keys && OthersUnchanged(p, q, x)
      && Stowed(p.base, p.objs[x], q.objs[x])
      && (|p.idle| < p.config.maxSize ==> q.idle == p.idle + [x])
      && (|p.idle| >= p.config.maxSize ==> q.idle == p.idle)
      && (p.config.pooled ==> q.objs[x].facet == SetState(p.objs[x].facet, Released))
      && (p.config.pooled ==> q.trace == p.trace + [ReleaseHook(x), Reset(x)])
      && (!p.config.pooled ==> q.objs[x].facet == p.objs[x].facet && q.trace == p.trace + [ReleaseHook(x)])
  {
    match BackingRelease(p, x)
    case Failure(e) => Failure(e)
    case Success(q) =>
      if p.config.pooled then
        var o := q.objs[x];
        Success(q.(objs := q.objs[x := o.(facet := SetState(o.facet, Released))], trace := q.trace + [Reset(x)]))
      else
        Success(q)
  }

  /** The events a warm-up of instances `first` .. `first + n - 1` records, in order. */
  function WarmUpTrace(first: Id, n: nat, pooled: bool): seq<Event>
    decreases n
  {
    if n == 0 then [] else WarmUpTrace(first, n - 1, pooled) + ReleaseEvents(first + n - 1, pooled)
  }

  /** The events the private Release records for one instance. */
  function ReleaseEvents(x: Id, pooled: bool): seq<Event> {
    if pooled then [ReleaseHook(x), Reset(x)] else [ReleaseHook(x)]
  }

  /**
   * A warmed-up instance: inactive, zeroed, under the released-container
   * if one is in force, in state Released, never given info or a pool.
   */
  predicate WarmedUp(p: PoolState, y: Id)
    requires y in p.objs
  {
    var o := p.objs[y];
    && !o.active && o.zeroed && !o.destroyed
    && o.parent == PB.OnReleasedContainer(p.base)
    && o.facet == Initial()
  }

  /** One warm-up step: Release(Create()). A fresh instance is never idle, so no fault. */
  function WarmUpOne(p: PoolState): (r: PoolState)
    requires Allocated(p)
    ensures Allocated(r) && SameSetup(p, r)
    ensures r.nextId == p.nextId + 1 && r.objs.Keys == p.objs.Keys + {p.nextId}
    ensures forall y :: y in p.objs ==> r.objs[y] == p.objs[y]
    ensures WarmedUp(r, p.nextId)
    ensures r.elementsGot == p.elementsGot
    ensures |p.idle| < p.config.maxSize ==> r.idle == p.idle + [p.nextId]
    ensures |p.idle| >= p.config.maxSize ==> r.idle == p.idle
    ensures r.trace == p.trace + ReleaseEvents(p.nextId, p.config.pooled)
  {
    var c := Create(p);
    assert c.item !in c.pool.elementsGot && c.item !in c.pool.idle;
    ReleaseItem(c.pool, c.item).value
  }

  function Min(a: int, b: int): int {
    if a <= b then a else b
  }

  /** An empty pool, before Awake warms it up. */
  function Empty(id: PoolId, config: Config, base: PB.Containers): (p: PoolState)
    ensures Valid(p)
    ensures p.objs == map[] && p.elementsGot == [] && p.idle == [] && p.trace == []
  {
    PoolState(id, config, base, map[], 0, [], [], [])
  }

  /**
   * The state after `i` warm-up steps from an empty pool: instances 0 .. i-1
   * exist and are warmed up, the first min(i, maxSize) of them are idle in
   * creation order, nothing is acquired, and each step recorded its events.
   */
  ghost predicate WarmedUpTo(p: PoolState, i: nat) {
    && Allocated(p) && p.nextId == i
    && (forall y :: y in p.objs <==> 0 <= y < i)
    && (forall y :: 0 <= y < i ==> WarmedUp(p, y))
    && p.elementsGot == []
    && p.idle == seq(Min(i, p.config.maxSize), k => k)
    && p.trace == WarmUpTrace(0, i, p.config.pooled)
  }

  lemma WarmUpStep(p: PoolState, i: nat)
    requires WarmedUpTo(p, i)
    ensures WarmedUpTo(WarmUpOne(p), i + 1)
    ensures SameSetup(p, WarmUpOne(p))
  {
    var r := WarmUpOne(p);
    assert r.idle == seq(Min(i + 1, p.config.maxSize), k => k);
    forall y | 0 <= y < i + 1
      ensures WarmedUp(r, y)
    {
      if y < i {
        assert WarmedUp(p, y);
        assert y in p.objs && r.objs[y] == p.objs[y] && r.base == p.base;
      } else {
        assert y == p.nextId;
      }
    }
  }

  /** Warm-up states satisfy the pool invariant. */
  lemma WarmedUpIsValid(p: PoolState, i: nat)
    requires WarmedUpTo(p, i)
    ensures Valid(p)
  {
    assert forall k :: 0 <= k < |p.idle| ==> p.idle[k] == k;
  }

  /**
   * Awake, then GenerateInitialElements: from an empty pool, m_size times
   * create a fresh instance and hand it to the private Release. Exactly
   * m_size instances are created; each ends Released, inactive and reset;
   * none is acquired; as many as maxSize allows are kept idle.
   */
  method Awake(id: PoolId, config: Config, base: PB.Containers) returns (r: PoolState)
    ensures Valid(r) && r.id == id && r.config == config && r.base == base
    ensures r.elementsGot == []
    ensures r.nextId == config.size
    ensures forall y :: y in r.objs <==> 0 <= y < config.size
    ensures forall y :: 0 <= y < config.size ==> WarmedUp(r, y)
    ensures r.idle == seq(Min(config.size, config.maxSize), k => k)
    ensures r.trace == WarmUpTrace(0, config.size, config.pooled)
  {
    r := Empty(id, config, base);
    var i := 0;
    assert r.idle == seq(Min(0, config.maxSize), k => k);
    while i < config.size
      invariant i <= config.size
      invariant WarmedUpTo(r, i)
      invariant r.id == id && r.config == config && r.base == base
    {
      WarmUpStep(r, i);
      r := WarmUpOne(r);
      i := i + 1;
    }
    WarmedUpIsValid(r, i);
  }

  /**
   * Generate: take an element from the backing store (OnGet has run); if it
   * is not a PooledObject, log and return it as is; otherwise set it active
   * or not, give it this pool and `info`, then call Generated and
   * OnItemGenerated in that order.
   */
  function Generate(p: PoolState, info: Option<InfoRef>, active: bool): (r: Generation)
    requires Allocated(p)
    ensures Allocated(r.pool) && SameSetup(p, r.pool)
    ensures r.pool.elementsGot == p.elementsGot + [r.item]
    ensures |p.idle| > 0 ==> r.item == p.idle[|p.idle| - 1] && r.pool.idle == p.idle[..|p.idle| - 1] && r.pool.nextId == p.nextId
    ensures |p.idle| == 0 ==> r.item == p.nextId && r.item !in p.objs && r.pool.idle == [] && r.pool.nextId == p.nextId + 1
    ensures r.item in r.pool.objs && r.pool.objs.Keys == p.objs.Keys + {r.item}
    ensures OthersUnchanged(p, r.pool, r.item)
    ensures r.pool.objs[r.item].zeroed
    ensures r.pool.objs[r.item].destroyed == Before(p, r.item).destroyed
    ensures r.pool.objs[r.item].parent ==
      (if PB.OnGetContainer(p.base).Some? then PB.OnGetContainer(p.base) else Before(p, r.item).parent)
    ensures r.outcome == Initialized <==> p.config.pooled
    ensures p.config.pooled ==> var f := r.pool.objs[r.item].facet;
      && f.state == Got && f.info == info && f.originPool == Some(p.id)
      && r.pool.objs[r.item].active == active
      && r.pool.trace == p.trace + [GetHook(r.item), GeneratedHook(r.item), ItemGeneratedHook(r.item)]
    ensures !p.config.pooled ==>
      && r.pool.trace == p.trace + [GetHook(r.item)]
      && r.pool.objs[r.item].facet == Before(p, r.item).facet
      && r.pool.objs[r.item].active == Before(p, r.item).active
  {
    var a := BackingGet(p);
    var x := a.item;
    var q := a.pool;
    if !p.config.pooled then
      Generation(q, x, GenerationError)
    else
      var o := q.objs[x];
      var f := ProvideInfo(ProvidePool(o.facet, Some(p.id)), info);
      Generation(q.(objs := q.objs[x := o.(active := active, facet := f)],
                    trace := q.trace + [GeneratedHook(x), ItemGeneratedHook(x)]),
                 x, Initialized)
  }

  /** The instance ids whose OnRelease calls a trace segment records, in order. */
  function ReleaseHooks(xs: seq<Id>): (r: seq<Event>)
    ensures |r| == |xs|
    ensures forall k :: 0 <= k < |xs| ==> r[k] == ReleaseHook(xs[k])
  {
    if |xs| == 0 then [] else ReleaseHooks(xs[..|xs| - 1]) + [ReleaseHook(xs[|xs| - 1])]
  }

  function Reversed(s: seq<Id>): (r: seq<Id>)
    ensures |r| == |s|
    ensures forall k :: 0 <= k < |s| ==> r[k] == s[|s| - 1 - k]
  {
    if |s| == 0 then [] else [s[|s| - 1]] + Reversed(s[..|s| - 1])
  }

  /** Recording one more release appends one more OnRelease event. */
  lemma ReleaseHooksSnoc(t: seq<Event>, xs: seq<Id>, x: Id)
    ensures t + ReleaseHooks(xs + [x]) == (t + ReleaseHooks(xs)) + [ReleaseHook(x)]
  {
    assert ReleaseHooks(xs + [x]) == ReleaseHooks(xs) + [ReleaseHook(x)];
  }

  /**
   * The order in which ReleaseAll hands the entries of `l` to the backing
   * store: the last entry first; its OnRelease then removes the FIRST
   * occurrence of that instance, and the loop goes on with what remains.
   * With duplicates the occurrence removed need not be the one released.
   */
  function Drain(l: seq<Id>): seq<Id>
    decreases |l|
  {
    if |l| == 0 then []
    else
      var x := l[|l| - 1];
      assert x in l;
      [x] + Drain(RemoveFirst(l, x))
  }

  /**
   * Releasing the last entry of `l`, which leaves `rest`, moves that entry
   * from the pending order `Drain(l)` to the end of the releases so far,
   * which together with the pending order make up the whole order `all`.
   */
  lemma DrainStep(released: seq<Id>, l: seq<Id>, rest: seq<Id>, all: seq<Id>)
    requires |l| > 0 && rest == RemoveFirst(l, l[|l| - 1])
    requires released + Drain(l) == all
    ensures (released + [l[|l| - 1]]) + Drain(rest) == all
  {
    var x := l[|l| - 1];
    assert Drain(l) == [x] + Drain(rest);
    assert (released + [x]) + Drain(rest) == released + ([x] + Drain(rest));
  }

  /** Releasing the newest entry of a duplicate-free list leaves the older ones, still duplicate-free. */
  lemma RemoveLastOfDistinct(l: seq<Id>)
    requires NoDup(l) && |l| > 0
    ensures RemoveFirst(l, l[|l| - 1]) == l[..|l| - 1]
    ensures NoDup(l[..|l| - 1])
  {
    var n := |l| - 1;
    var x := l[n];
    var t := l[..n];
    assert x !in t by {
      forall k | 0 <= k < n ensures t[k] != x {
        assert t[k] == l[k];
      }
    }
    var r := RemoveFirst(l, x);
    assert IndexOf(l, x) == n;
    assert r == r[..n] == t;
  }

  /** ReleaseAll releases every entry of the list exactly as often as it occurs there. */
  lemma {:induction false} DrainPermutes(l: seq<Id>)
    ensures multiset(Drain(l)) == multiset(l)
    decreases |l|
  {
    if |l| > 0 {
      var x := l[|l| - 1];
      assert x in l;
      var t := RemoveFirst(l, x);
      DrainPermutes(t);
      assert Drain(l) == [x] + Drain(t);
      assert multiset(l) == multiset{x} + multiset(t);
    }
  }

  /** On a duplicate-free list ReleaseAll releases newest first: the list reversed. */
  lemma {:induction false} DrainDistinct(l: seq<Id>)
    requires NoDup(l)
    ensures Drain(l) == Reversed(l)
    decreases |l|
  {
    if |l| > 0 {
      var t := l[..|l| - 1];
      RemoveLastOfDistinct(l);
      assert Drain(l) == [l[|l| - 1]] + Drain(t);
      DrainDistinct(t);
    }
  }

  /**
   * What ReleaseAll keeps true after the releases `released` from the
   * original list `s` of pool `p`, with `r` the current state and `i` the
   * next index to release.
   */
  predicate ReleaseAllInvariant(p: PoolState, r: PoolState, i: int, released: seq<Id>) {
    var s := p.elementsGot;
    && -1 <= i && |r.elementsGot| == i + 1
    && Allocated(r) && SameSetup(p, r) && r.nextId == p.nextId
    && r.objs.Keys == p.objs.Keys && SameFacets(p, r)
    && multiset(r.elementsGot) + multiset(released) == multiset(s)
    && r.trace == p.trace + ReleaseHooks(released)
    && (NoDup(s) && Disjoint(s, p.idle) ==> NoDup(r.elementsGot) && Disjoint(r.elementsGot, r.idle))
    && (Valid(p) ==> Valid(r))
  }

  /**
   * The idle store after releasing `pushed`, in order, into a store holding
   * `idle`: each element is kept only while fewer than `maxSize` are idle.
   */
  function Pushed(idle: seq<Id>, pushed: seq<Id>, maxSize: nat): seq<Id>
    requires |idle| <= maxSize
  {
    (idle + pushed)[..Min(|idle| + |pushed|, maxSize)]
  }

  /**
   * What the releases so far did to the instances and the idle store: each
   * released instance is stowed as OnRelease leaves it, every other one is
   * exactly as it was, and the idle store grew by the released instances in
   * release order until it reached maxSize.
   */
  predicate ReleaseAllEffects(p: PoolState, r: PoolState, released: seq<Id>) {
    && (forall y :: y in p.objs ==>
          && y in r.objs
          && (if y in released then Stowed(p.base, p.objs[y], r.objs[y]) else r.objs[y] == p.objs[y]))
    && (|p.idle| <= p.config.maxSize ==>
          r.idle == Pushed(p.idle, released, p.config.maxSize))
  }

  /** One more release through the backing store keeps ReleaseAllEffects. */
  lemma ReleaseAllEffectsStep(p: PoolState, r: PoolState, released: seq<Id>, x: Id, q: PoolState)
    requires ReleaseAllEffects(p, r, released) && r.base == p.base && r.config == p.config
    requires x in p.objs && x in r.objs && q.objs.Keys == r.objs.Keys && OthersUnchanged(r, q, x)
    requires Stowed(r.base, r.objs[x], q.objs[x])
    requires |r.idle| < r.config.maxSize ==> q.idle == r.idle + [x]
    requires |r.idle| >= r.config.maxSize ==> q.idle == r.idle
    ensures ReleaseAllEffects(p, q, released + [x])
  {
    if |p.idle| <= p.config.maxSize {
      var l := p.idle + released;
      assert p.idle + (released + [x]) == l + [x];
      if |r.idle| < r.config.maxSize {
        assert r.idle == l;
      } else {
        assert q.idle == (l + [x])[..p.config.maxSize];
      }
    }
  }

  /** Instances ReleaseAll never reached are untouched. */
  lemma ReleaseAllFrame(p: PoolState, r: PoolState, released: seq<Id>)
    requires ReleaseAllEffects(p, r, released)
    requires multiset(r.elementsGot) + multiset(released) == multiset(p.elementsGot)
    ensures forall y :: y in p.objs && y !in p.elementsGot ==> y in r.objs && r.objs[y] == p.objs[y]
  {
    forall y | y in p.objs && y !in p.elementsGot
      ensures y in r.objs && r.objs[y] == p.objs[y]
    {
      assert multiset(p.elementsGot)[y] == 0;
      assert y !in released;
    }
  }

  /** Once everything is released, every formerly acquired instance is stowed. */
  lemma ReleaseAllStowed(p: PoolState, r: PoolState, released: seq<Id>)
    requires ReleaseAllEffects(p, r, released) && Allocated(p)
    requires multiset(released) == multiset(p.elementsGot)
    ensures forall y :: y in p.elementsGot ==> y in r.objs && Stowed(p.base, p.objs[y], r.objs[y])
  {
    forall y | y in p.elementsGot
      ensures y in r.objs && Stowed(p.base, p.objs[y], r.objs[y])
    {
      assert multiset(released)[y] > 0;
      assert y in released;
    }
  }

  /** Every instance released so far, whether or not the loop went on to fault, is stowed. */
  lemma ReleasedAreStowed(p: PoolState, r: PoolState, released: seq<Id>)
    requires ReleaseAllEffects(p, r, released) && Allocated(p)
    requires multiset(r.elementsGot) + multiset(released) == multiset(p.elementsGot)
    ensures forall y :: y in released ==> y in p.objs && Stowed(p.base, p.objs[y], r.objs[y])
  {
    forall y | y in released
      ensures y in p.objs && Stowed(p.base, p.objs[y], r.objs[y])
    {
      assert multiset(p.elementsGot)[y] > 0;
      assert y in p.elementsGot;
    }
  }

  /** A successful backing-store release keeps the instance table's shape and every facet. */
  lemma BackingReleaseFrame(p: PoolState, r: PoolState, x: Id, q: PoolState)
    requires Allocated(r) && SameSetup(p, r) && r.nextId == p.nextId
    requires r.objs.Keys == p.objs.Keys && SameFacets(p, r)
    requires x in r.objs && BackingRelease(r, x) == Success(q)
    ensures Allocated(q) && SameSetup(p, q) && q.nextId == p.nextId
    ensures q.objs.Keys == p.objs.Keys && SameFacets(p, q)
  {
  }

  /**
   * Releasing one acquired entry of a duplicate-free list that is kept
   * apart from the idle store keeps both properties, whether or not the
   * released instance is kept idle.
   */
  lemma ReleaseKeepsDisjoint(r: PoolState, x: Id, q: PoolState)
    requires NoDup(r.elementsGot) && Disjoint(r.elementsGot, r.idle) && x in r.elementsGot
    requires q.elementsGot == RemoveFirst(r.elementsGot, x)
    requires q.idle == r.idle || q.idle == r.idle + [x]
    ensures NoDup(q.elementsGot) && Disjoint(q.elementsGot, q.idle)
  {
    RemoveFirstFromDistinct(r.elementsGot, x);
    forall y | y in q.elementsGot
      ensures y !in q.idle
    {
      assert y in r.elementsGot && y != x;
    }
  }

  /**
   * Handing an acquired element of a valid pool to the backing store, which
   * drops it from the acquired list and keeps it idle while there is room,
   * keeps the pool valid.
   */
  lemma ReleaseKeepsValid(r: PoolState, x: Id, q: PoolState)
    requires Valid(r) && x in r.elementsGot
    requires Allocated(q) && q.config == r.config && SameFacets(r, q)
    requires q.elementsGot == RemoveFirst(r.elementsGot, x)
    requires |r.idle| < r.config.maxSize ==> q.idle == r.idle + [x]
    requires |r.idle| >= r.config.maxSize ==> q.idle == r.idle
    ensures Valid(q)
  {
    ReleaseKeepsDisjoint(r, x, q);
    RemoveFirstFromDistinct(r.elementsGot, x);
    assert x !in r.idle;
    assert NoDup(q.idle);
    if r.config.pooled {
      forall y | y in q.elementsGot
        ensures q.objs[y].facet.state == Got
      {
        assert y in r.elementsGot;
      }
    }
  }

  /** One iteration of ReleaseAll keeps its invariant, with one more release on record. */
  lemma ReleaseAllStep(p: PoolState, r: PoolState, i: int, released: seq<Id>, q: PoolState)
    requires ReleaseAllInvariant(p, r, i, released) && i >= 0
    requires Allocated(q) && SameSetup(p, q) && q.nextId == p.nextId
    requires q.objs.Keys == p.objs.Keys && SameFacets(p, q)
    requires q.elementsGot == RemoveFirst(r.elementsGot, r.elementsGot[i])
    requires q.trace == r.trace + [ReleaseHook(r.elementsGot[i])]
    requires |r.idle| < r.config.maxSize ==> q.idle == r.idle + [r.elementsGot[i]]
    requires |r.idle| >= r.config.maxSize ==> q.idle == r.idle
    ensures ReleaseAllInvariant(p, q, i - 1, released + [r.elementsGot[i]])
  {
    var s := p.elementsGot;
    var x := r.elementsGot[i];
    assert x in r.elementsGot;
    assert multiset(q.elementsGot) + multiset(released + [x]) == multiset(s);
    ReleaseHooksSnoc(p.trace, released, x);
    if NoDup(s) && Disjoint(s, p.idle) {
      ReleaseKeepsDisjoint(r, x, q);
    }
    if Valid(p) {
      assert SameFacets(r, q);
      ReleaseKeepsValid(r, x, q);
    }
  }

  /**
   * ReleaseAll: from the last index down to 0, hand elementsGot[i] straight
   * to the backing store. Each release removes exactly one entry through
   * OnRelease, so the list shrinks by one per iteration and ends empty. The
   * private Release is bypassed: no state is set and no ResetValues runs.
   * A collection-check fault aborts the loop, as the exception would.
   */
  method ReleaseAll(p: PoolState) returns (r: PoolState, fault: Option<Fault>, ghost released: seq<Id>)
    requires Allocated(p)
    ensures Allocated(r) && SameSetup(p, r) && r.nextId == p.nextId
    ensures r.objs.Keys == p.objs.Keys && SameFacets(p, r)
    ensures released <= Drain(p.elementsGot)
    ensures released + Drain(r.elementsGot) == Drain(p.elementsGot)
    ensures fault.None? ==> r.elementsGot == [] && released == Drain(p.elementsGot)
    ensures fault.Some? ==>
      && p.config.collectionCheck && |r.elementsGot| > 0
      && r.elementsGot[|r.elementsGot| - 1] in r.idle
      && fault.value == AlreadyReleased(r.elementsGot[|r.elementsGot| - 1])
    ensures forall y :: y in released ==> y in p.objs && Stowed(p.base, p.objs[y], r.objs[y])
    ensures fault.None? ==> multiset(released) == multiset(p.elementsGot)
    ensures r.trace == p.trace + ReleaseHooks(released)
    ensures |p.idle| <= p.config.maxSize ==> r.idle == Pushed(p.idle, released, p.config.maxSize)
    ensures fault.None? && NoDup(p.elementsGot) ==> released == Reversed(p.elementsGot)
    ensures fault.None? && NoDup(p.elementsGot) ==> r.trace == p.trace + ReleaseHooks(Reversed(p.elementsGot))
    ensures fault.None? && NoDup(p.elementsGot) && |p.idle| <= p.config.maxSize ==>
      r.idle == Pushed(p.idle, Reversed(p.elementsGot), p.config.maxSize)
    ensures !p.config.collectionCheck ==> fault.None?
    ensures NoDup(p.elementsGot) && Disjoint(p.elementsGot, p.idle) ==> fault.None?
    ensures Valid(p) ==> Valid(r) && fault.None?
    ensures Valid(p) && p.config.pooled ==>
      forall x :: x in p.elementsGot ==> x !in r.elementsGot && r.objs[x].facet.state == Got
    ensures forall y :: y in p.objs && y !in p.elementsGot ==> r.objs[y] == p.objs[y]
    ensures fault.None? ==> forall y :: y in p.elementsGot ==> Stowed(p.base, p.objs[y], r.objs[y])
  {
    var i;
    r, fault, released, i := ReleaseFromNewest(p);
    if fault.None? {
      ReleaseAllFinished(p, r, released);
    } else {
      ReleaseAllFaulted(p, r, i, released);
    }
  }

  /**
   * The loop of ReleaseAll: from the last index down to 0, hand
   * elementsGot[i] to the backing store, stopping at the first fault. On
   * return both loop invariants hold at the index reached; `i` is -1 when
   * every entry was released, and otherwise the entry the backing store
   * refused as already idle.
   */
  method ReleaseFromNewest(p: PoolState) returns (r: PoolState, fault: Option<Fault>, ghost released: seq<Id>, i: int)
    requires Allocated(p)
    ensures ReleaseAllLoop(p, r, i, released)
    ensures fault.None? <==> i == -1
    ensures fault.Some? ==>
      (0 <= i && r.config.collectionCheck && r.elementsGot[i] in r.idle
       && fault.value == AlreadyReleased(r.elementsGot[i]))
  {
    r := p;
    fault := None;
    released := [];
    i := |r.elementsGot| - 1;
    ReleaseAllStart(p);
    while i >= 0
      invariant ReleaseAllLoop(p, r, i, released)
      invariant fault.None?
      decreases i + 1
    {
      var x := r.elementsGot[i];
      var res := BackingRelease(r, x);
      if res.Failure? {
        fault := Some(res.error);
        return;
      }
      ReleaseAllIteration(p, r, i, released, res.value);
      r := res.value;
      released := released + [x];
      i := i - 1;
    }
  }

  /** Everything ReleaseAll's loop keeps true: the invariant, the effects so far and the release order. */
  predicate ReleaseAllLoop(p: PoolState, r: PoolState, i: int, released: seq<Id>) {
    && ReleaseAllInvariant(p, r, i, released)
    && ReleaseAllEffects(p, r, released)
    && released + Drain(r.elementsGot) == Drain(p.elementsGot)
  }

  /** Before the first iteration nothing has been released and the loop invariant holds. */
  lemma ReleaseAllStart(p: PoolState)
    requires Allocated(p)
    ensures ReleaseAllLoop(p, p, |p.elementsGot| - 1, [])
  {
    assert p.idle + [] == p.idle;
  }

  /**
   * A collection-check fault at index `i`: the entry is already idle, which
   * a valid pool, or any duplicate-free list kept apart from the idle store,
   * rules out; the releases so far follow the release order, and instances
   * that were not acquired are untouched.
   */
  lemma ReleaseAllFaulted(p: PoolState, r: PoolState, i: int, released: seq<Id>)
    requires ReleaseAllLoop(p, r, i, released) && Allocated(p) && 0 <= i
    requires r.config.collectionCheck && r.elementsGot[i] in r.idle
    ensures p.config.collectionCheck && |r.elementsGot| == i + 1
    ensures !(NoDup(p.elementsGot) && Disjoint(p.elementsGot, p.idle)) && !Valid(p)
    ensures released <= Drain(p.elementsGot) && released + Drain(r.elementsGot) == Drain(p.elementsGot)
    ensures forall y :: y in released ==> y in p.objs && Stowed(p.base, p.objs[y], r.objs[y])
    ensures forall y :: y in p.objs && y !in p.elementsGot ==> r.objs[y] == p.objs[y]
  {
    assert released <= released + Drain(r.elementsGot);
    ReleaseAllFrame(p, r, released);
    ReleasedAreStowed(p, r, released);
  }

  /** One ReleaseAll iteration whose backing-store release succeeded keeps the loop invariant. */
  lemma ReleaseAllIteration(p: PoolState, r: PoolState, i: int, released: seq<Id>, q: PoolState)
    requires ReleaseAllLoop(p, r, i, released) && i >= 0
    requires r.elementsGot[i] in r.objs && BackingRelease(r, r.elementsGot[i]) == Success(q)
    ensures ReleaseAllLoop(p, q, i - 1, released + [r.elementsGot[i]])
  {
    var x := r.elementsGot[i];
    BackingReleaseFrame(p, r, x, q);
    ReleaseAllStep(p, r, i, released, q);
    ReleaseAllEffectsStep(p, r, released, x, q);
    DrainStep(released, r.elementsGot, q.elementsGot, Drain(p.elementsGot));
  }

  /** What the loop invariants give once every entry has been released. */
  lemma ReleaseAllFinished(p: PoolState, r: PoolState, released: seq<Id>)
    requires ReleaseAllLoop(p, r, -1, released) && Allocated(p)
    ensures r.elementsGot == [] && released == Drain(p.elementsGot)
    ensures released + Drain(r.elementsGot) == Drain(p.elementsGot)
    ensures multiset(released) == multiset(p.elementsGot)
    ensures forall y :: y in released ==> y in p.objs && Stowed(p.base, p.objs[y], r.objs[y])
    ensures NoDup(p.elementsGot) ==> released == Reversed(p.elementsGot)
    ensures Valid(p) ==> Valid(r)
    ensures Valid(p) && p.config.pooled ==>
      forall x :: x in p.elementsGot ==> x !in r.elementsGot && r.objs[x].facet.state == Got
    ensures forall y :: y in p.objs && y !in p.elementsGot ==> r.objs[y] == p.objs[y]
    ensures forall y :: y in p.elementsGot ==> Stowed(p.base, p.objs[y], r.objs[y])
  {
    assert released + [] == released;
    assert multiset(r.elementsGot) == multiset{};
    ReleaseAllFrame(p, r, released);
    ReleaseAllStowed(p, r, released);
    ReleasedAreStowed(p, r, released);
    if NoDup(p.elementsGot) {
      DrainDistinct(p.elementsGot);
    }
  }

  /**
   * The object's own protected Release(): ResetValues first, then either the
   * backing store of the recorded pool (bypassing the pool's private
   * Release, so no state is set) or, with no pool recorded, Destroy.
   * A pool other than this one is outside this model and left as a tag.
   */
  function SelfRelease(p: PoolState, x: Id): (r: SelfReleaseOutcome)
    requires Allocated(p) && x in p.objs
    ensures var q := r.After();
      Allocated(q) && SameSetup(p, q) && q.nextId == p.nextId && q.objs.Keys == p.objs.Keys
    ensures r.DestroyedItself? <==> p.objs[x].facet.originPool == None
    ensures (r.Returned? || r.Faulted?) <==> p.objs[x].facet.originPool == Some(p.id)
    ensures r.Faulted? <==> p.objs[x].facet.originPool == Some(p.id) && p.config.collectionCheck && x in p.idle
    ensures r.ReturnedToOtherPool? ==> r.other == p.objs[x].facet.originPool.value && r.other != p.id
    ensures r.ReturnedToOtherPool? ==>
      && r.pool.elementsGot == p.elementsGot && r.pool.idle == p.idle
      && r.pool.trace == p.trace + [Reset(x)]
      && OthersUnchanged(p, r.pool, x) && r.pool.objs[x].facet == p.objs[x].facet
  {
    var q := p.(trace := p.trace + [Reset(x)]);
    match Dispose(p.objs[x].facet)
    case Destroy =>
      DestroyedItself(q.(objs := q.objs[x := q.objs[x].(destroyed := true)]))
    case ReturnTo(pid) =>
      if pid != p.id then ReturnedToOtherPool(q, pid)
      else
        match BackingRelease(q, x)
        case Failure(e) => Faulted(q, e)
        case Success(s) => Returned(s)
  }

  /**
   * Whatever Release() ends in, ResetValues was called first, the facet is
   * untouched (no state is set), and no other instance changed.
   */
  lemma SelfReleaseResetsFirst(p: PoolState, x: Id)
    requires Allocated(p) && x in p.objs
    ensures var q := SelfRelease(p, x).After();
      && OthersUnchanged(p, q, x)
      && q.objs[x].facet == p.objs[x].facet
      && |q.trace| > |p.trace| && q.trace[..|p.trace| + 1] == p.trace + [Reset(x)]
  {
  }

  /** With no pool recorded, Release() destroys the object and the pool's lists are untouched. */
  lemma SelfReleaseDestroys(p: PoolState, x: Id)
    requires Allocated(p) && x in p.objs && p.objs[x].facet.originPool == None
    ensures var q := SelfRelease(p, x).After();
      && q.objs[x].destroyed
      && q.idle == p.idle && q.elementsGot == p.elementsGot
      && q.trace == p.trace + [Reset(x)]
  {
  }

  /**
   * Returned to this pool, the object goes through OnRelease after
   * ResetValues, leaves elementsGot once, and is kept idle while there is room.
   */
  lemma SelfReleaseReturns(p: PoolState, x: Id)
    requires Allocated(p) && x in p.objs && p.objs[x].facet.originPool == Some(p.id)
    requires !(p.config.collectionCheck && x in p.idle)
    ensures SelfRelease(p, x).Returned?
    ensures var q := SelfRelease(p, x).pool;
      && q.elementsGot == RemoveFirst(p.elementsGot, x)
      && Stowed(p.base, p.objs[x], q.objs[x])
      && (|p.idle| < p.config.maxSize ==> q.idle == p.idle + [x])
      && (|p.idle| >= p.config.maxSize ==> q.idle == p.idle)
      && q.trace == p.trace + [Reset(x), ReleaseHook(x)]
  {
  }

  /** SetCustomReleasedContainer: a permanent override, effective from the next release. */
  function SetCustomReleasedContainer(p: PoolState, container: Option<PB.Container>): (r: PoolState)
    ensures PB.OnReleasedContainer(r.base) == container
    ensures PB.OnGetContainer(r.base) == PB.OnGetContainer(p.base)
    ensures r == p.(base := r.base)
  {
    p.(base := PB.CustomReleasedContainer(p.base, container))
  }

  /** SetCustomGetContainer: a permanent override, effective from the next get. */
  function SetCustomGetContainer(p: PoolState, container: Option<PB.Container>): (r: PoolState)
    ensures PB.OnGetContainer(r.base) == container
    ensures PB.OnReleasedContainer(r.base) == PB.OnReleasedContainer(p.base)
    ensures r == p.(base := r.base)
  {
    p.(base := PB.CustomGetContainer(p.base, container))
  }
}

=== FILE: pool_base.dfy ===
/**
 * The container configuration every pool carries (Runtime/PoolBase.cs):
 * where acquired and released objects are reparented, and whether each
 * container is in force ("fixed").
 */
module PoolBase {
  import opened Wrappers

  /** A scene-graph Transform used as a parent. */
  type Container = nat

  /** The two container slots and their "fixed" flags; a `None` slot is a null Transform. */
  datatype Containers = Containers(
    fixedReleased: bool,
    releasedContainer: Option<Container>,
    fixedGet: bool,
    getContainer: Option<Container>)

  /** The configuration as serialized: both fixed flags default to true. */
  function Serialized(released: Option<Container>, got: Option<Container>): (c: Containers)
    ensures c.fixedReleased && c.fixedGet
    ensures c.releasedContainer == released && c.getContainer == got
  {
    Containers(true, released, true, got)
  }

  /** The container released objects are moved under, or null. */
  function OnReleasedContainer(c: Containers): (r: Option<Container>)
    ensures c.fixedReleased ==> r == c.releasedContainer
    ensures !c.fixedReleased ==> r == None
  {
    if c.fixedReleased then c.releasedContainer else None
  }

  /** The container acquired objects are moved under, or null. */
  function OnGetContainer(c: Containers): (r: Option<Container>)
    ensures c.fixedGet ==> r == c.getContainer
    ensures !c.fixedGet ==> r == None
  {
    if c.fixedGet then c.getContainer else None
  }

  /** Installs a permanent released-container override. */
  function CustomReleasedContainer(c: Containers, container: Option<Container>): (r: Containers)
    ensures OnReleasedContainer(r) == container
    ensures r.fixedGet == c.fixedGet && r.getContainer == c.getContainer
    ensures OnGetContainer(r) == OnGetContainer(c)
  {
    c.(fixedReleased := true, releasedContainer := container)
  }

  /** Installs a permanent get-container override. */
  function CustomGetContainer(c: Containers, container: Option<Container>): (r: Containers)
    ensures OnGetContainer(r) == container
    ensures r.fixedReleased == c.fixedReleased && r.releasedContainer == c.releasedContainer
    ensures OnReleasedContainer(r) == OnReleasedContainer(c)
  {
    c.(fixedGet := true, getContainer := container)
  }

  /** Setting the same override twice is the same as setting it once. */
  lemma CustomReleasedContainerIdempotent(c: Containers, container: Option<Container>)
    ensures CustomReleasedContainer(CustomReleasedContainer(c, container), container)
         == CustomReleasedContainer(c, container)
  {
  }

  lemma CustomGetContainerIdempotent(c: Containers, container: Option<Container>)
    ensures CustomGetContainer(CustomGetContainer(c, container), container)
         == CustomGetContainer(c, container)
  {
  }

  /** The two overrides touch disjoint fields, so their order does not matter. */
  lemma CustomContainersCommute(c: Containers, released: Option<Container>, got: Option<Container>)
    ensures CustomGetContainer(CustomReleasedContainer(c, released), got)
         == CustomReleasedContainer(CustomGetContainer(c, got), released)
  {
  }
}

=== FILE: pool_properties.dfy ===
/**
 * Properties that relate several pool operations: round trips, the pool
 * invariant, the collection check, container overrides taking effect, and
 * the startup scenario of a warmed pool.
 */
module PoolProperties {
  import opened Wrappers
  import opened PooledObject
  import PB = PoolBase
  import opened Pool

  /** OnRelease undoes OnGet's change to the acquired list. */
  lemma OnGetThenOnRelease(p: PoolState, x: Id)
    requires x in p.objs && x !in p.elementsGot
    ensures OnRelease(OnGet(p, x), x).elementsGot == p.elementsGot
  {
    OnGetThenOnReleaseList(p.elementsGot, x);
  }

  /** Generate keeps the pool invariant. */
  lemma GenerateKeepsValid(p: PoolState, info: Option<InfoRef>, active: bool)
    requires Valid(p)
    ensures Valid(Generate(p, info, active).pool)
  {
    var g := Generate(p, info, active);
    var q := g.pool;
    var x := g.item;
    assert x !in p.elementsGot;
    assert Disjoint(q.elementsGot, q.idle) by {
      forall y | y in q.elementsGot
        ensures y !in q.idle
      {
        if y != x {
          assert y in p.elementsGot;
        }
      }
    }
    if p.config.pooled {
      forall y | y in q.elementsGot
        ensures q.objs[y].facet.state == Got
      {
        if y != x {
          assert y in p.elementsGot;
        }
      }
    }
  }

  /** Two generations hand out distinct instances, each carrying its own info. */
  lemma GenerateTwiceKeepsInfos(p: PoolState, a: Option<InfoRef>, b: Option<InfoRef>, active: bool)
    requires Valid(p) && p.config.pooled
    ensures var g1 := Generate(p, a, active);
            var g2 := Generate(g1.pool, b, active);
      && g1.item != g2.item
      && g2.pool.elementsGot == p.elementsGot + [g1.item, g2.item]
      && g2.pool.objs[g1.item].facet.info == a
      && g2.pool.objs[g2.item].facet.info == b
  {
    var g1 := Generate(p, a, active);
    GenerateKeepsValid(p, a, active);
    GenerateHandsOutUnacquired(g1.pool, b, active);
  }

  /** In a valid pool, Generate never hands out an instance that is already acquired. */
  lemma GenerateHandsOutUnacquired(p: PoolState, info: Option<InfoRef>, active: bool)
    requires Valid(p)
    ensures Generate(p, info, active).item !in p.elementsGot
  {
    var g := Generate(p, info, active);
    if |p.idle| > 0 {
      assert g.item in p.idle;
    }
  }

  /**
   * Generate followed by the object's own Release(): the object is returned
   * and leaves the acquired list as it was, but its state is still Got and
   * its info still set, because this path never reaches the pool's private
   * Release.
   */
  lemma GenerateThenSelfRelease(p: PoolState, info: Option<InfoRef>, active: bool)
    requires Valid(p) && p.config.pooled
    ensures var g := Generate(p, info, active);
            var r := SelfRelease(g.pool, g.item);
      && r.Returned?
      && r.pool.elementsGot == p.elementsGot
      && r.pool.objs[g.item].facet.state == Got
      && r.pool.objs[g.item].facet.info == info
  {
    var g := Generate(p, info, active);
    GenerateKeepsValid(p, info, active);
    SelfReleaseReturns(g.pool, g.item);
    SelfReleaseResetsFirst(g.pool, g.item);
    OnGetThenOnReleaseList(p.elementsGot, g.item);
  }

  /** Generate then Release() puts a reused instance back where it was in the idle store. */
  lemma GenerateThenSelfReleaseIdle(p: PoolState, info: Option<InfoRef>, active: bool)
    requires Valid(p) && p.config.pooled && |p.idle| > 0
    ensures var g := Generate(p, info, active);
      SelfRelease(g.pool, g.item).After().idle == p.idle
  {
    var g := Generate(p, info, active);
    GenerateKeepsValid(p, info, active);
    SelfReleaseReturns(g.pool, g.item);
    assert p.idle[..|p.idle| - 1] + [g.item] == p.idle;
  }

  /**
   * Generate followed by the pool's private Release: the acquired list and
   * idle store are restored, and the object is back in state Released, with
   * ResetValues called after OnRelease.
   */
  lemma GenerateThenReleaseItem(p: PoolState, info: Option<InfoRef>, active: bool)
    requires Valid(p) && p.config.pooled && |p.idle| > 0
    ensures var g := Generate(p, info, active);
            var r := ReleaseItem(g.pool, g.item);
      && r.Success?
      && r.value.elementsGot == p.elementsGot
      && r.value.idle == p.idle
      && r.value.objs[g.item].facet.state == Released
      && r.value.trace == g.pool.trace + [ReleaseHook(g.item), Reset(g.item)]
  {
    var g := Generate(p, info, active);
    GenerateKeepsValid(p, info, active);
    OnGetThenOnReleaseList(p.elementsGot, g.item);
    assert p.idle[..|p.idle| - 1] + [g.item] == p.idle;
  }

  /** List form of OnGetThenOnRelease: removing an appended fresh element restores the list. */
  lemma OnGetThenOnReleaseList(s: seq<Id>, x: Id)
    requires x !in s
    ensures RemoveFirst(s + [x], x) == s
  {
    var t := s + [x];
    var i := IndexOf(t, x);
    assert t[..|s|] == s;
    var r := RemoveFirst(t, x);
    assert r == r[..i] + r[i..];
  }

  /** With the collection check on, the object's own Release() keeps the pool invariant. */
  lemma SelfReleaseKeepsValid(p: PoolState, x: Id)
    requires Valid(p) && x in p.objs && p.config.collectionCheck
    ensures Valid(SelfRelease(p, x).After())
  {
    var r := SelfRelease(p, x);
    SelfReleaseResetsFirst(p, x);
    var q := r.After();
    if r.Returned? {
      SelfReleaseReturns(p, x);
      RemoveFirstFromDistinct(p.elementsGot, x);
      assert x !in p.idle;
      if p.config.pooled {
        forall y | y in q.elementsGot
          ensures q.objs[y].facet.state == Got
        {
          assert y in p.elementsGot && y != x;
        }
      }
    }
  }

  /**
   * Without the collection check nothing stops a second Release() of an
   * idle object: it is pushed again and the idle store holds it twice.
   */
  lemma DoubleReleaseWithoutCheck(p: PoolState, x: Id)
    requires Valid(p) && !p.config.collectionCheck
    requires x in p.idle && |p.idle| < p.config.maxSize
    requires p.objs[x].facet.originPool == Some(p.id)
    ensures SelfRelease(p, x).Returned?
    ensures !NoDup(SelfRelease(p, x).pool.idle)
  {
    SelfReleaseReturns(p, x);
    var q := SelfRelease(p, x).pool;
    var k :| 0 <= k < |p.idle| && p.idle[k] == x;
    assert q.idle[k] == x && q.idle[|p.idle|] == x;
  }

  /**
   * With the collection check on, a second Release() of an idle object
   * faults: the backing store is left exactly as it was, though
   * ResetValues has already run.
   */
  lemma DoubleReleaseWithCheck(p: PoolState, x: Id)
    requires Allocated(p) && p.config.collectionCheck
    requires x in p.idle && x in p.objs
    requires p.objs[x].facet.originPool == Some(p.id)
    ensures SelfRelease(p, x) == Faulted(p.(trace := p.trace + [Reset(x)]), AlreadyReleased(x))
  {
  }

  /** A get-container override is used by the next Generate. */
  lemma CustomGetContainerTakesEffect(p: PoolState, c: PB.Container, info: Option<InfoRef>, active: bool)
    requires Allocated(p)
    ensures var g := Generate(SetCustomGetContainer(p, Some(c)), info, active);
      g.pool.objs[g.item].parent == Some(c)
  {
  }

  /**
   * A pool whose containers are as serialized (both fixed flags true) parents
   * every acquired object under the serialized get-container.
   */
  lemma SerializedGetContainerUsed(p: PoolState, released: Option<PB.Container>, c: PB.Container,
                                   info: Option<InfoRef>, active: bool)
    requires Allocated(p) && p.base == PB.Serialized(released, Some(c))
    ensures var g := Generate(p, info, active);
      g.pool.objs[g.item].parent == Some(c)
  {
  }

  /** A released-container override is used by the next release into this pool. */
  lemma CustomReleasedContainerTakesEffect(p: PoolState, c: PB.Container, x: Id)
    requires Allocated(p) && x in p.objs && p.objs[x].facet.originPool == Some(p.id)
    requires !(p.config.collectionCheck && x in p.idle)
    ensures var r := SelfRelease(SetCustomReleasedContainer(p, Some(c)), x);
      r.Returned? && r.pool.objs[x].parent == Some(c)
  {
    SelfReleaseReturns(SetCustomReleasedContainer(p, Some(c)), x);
  }

  /** After warm-up with m_size 3 and maxSize 5: three idle, none acquired. */
  lemma ScenarioWarmUp(p: PoolState)
    requires WarmedUpTo(p, 3) && p.config.maxSize == 5
    ensures Valid(p) && |p.idle| == 3 && |p.elementsGot| == 0 && p.nextId == 3
  {
    WarmedUpIsValid(p, 3);
    assert Min(3, 5) == 3;
  }

  /** Three Generate calls on three idle instances reuse all of them. */
  lemma ScenarioThreeGets(p: PoolState, info: Option<InfoRef>)
    requires Valid(p) && |p.idle| == 3 && |p.elementsGot| == 0
    ensures var g3 := Generate(Generate(Generate(p, info, true).pool, info, true).pool, info, true);
      && Valid(g3.pool) && |g3.pool.elementsGot| == 3 && |g3.pool.idle| == 0
      && g3.pool.nextId == p.nextId && g3.pool.config == p.config
  {
    var g1 := Generate(p, info, true);
    GenerateKeepsValid(p, info, true);
    var g2 := Generate(g1.pool, info, true);
    GenerateKeepsValid(g1.pool, info, true);
    GenerateKeepsValid(g2.pool, info, true);
  }

  /**
   * A fourth Generate with nothing idle and room below maxSize creates a new
   * instance; when that one releases itself, one is idle and three are acquired.
   */
  lemma ScenarioFourthGet(p: PoolState, info: Option<InfoRef>)
    requires Valid(p) && p.config.pooled && p.config.maxSize == 5
    requires |p.idle| == 0 && |p.elementsGot| == 3
    ensures var g4 := Generate(p, info, true);
            var r := SelfRelease(g4.pool, g4.item);
      && g4.item == p.nextId && |g4.pool.elementsGot| == 4
      && r.Returned? && |r.pool.idle| == 1 && |r.pool.elementsGot| == 3
  {
    var g4 := Generate(p, info, true);
    GenerateKeepsValid(p, info, true);
    SelfReleaseShrinks(g4.pool, g4.item);
  }

  /**
   * The startup scenario of a pool with m_size 3 and maxSize 5: after
   * warm-up three are idle and none acquired; three Generate calls reuse
   * them; a fourth creates instance 3; that one releasing itself leaves
   * one idle and three acquired.
   */
  lemma ScenarioThreeFive(p: PoolState, info: Option<InfoRef>)
    requires WarmedUpTo(p, 3) && p.config.maxSize == 5 && p.config.pooled
    ensures |p.idle| == 3 && |p.elementsGot| == 0
    ensures var g3 := Generate(Generate(Generate(p, info, true).pool, info, true).pool, info, true);
            var g4 := Generate(g3.pool, info, true);
            var r := SelfRelease(g4.pool, g4.item);
      && |g3.pool.elementsGot| == 3 && |g3.pool.idle| == 0
      && g4.item == 3 && |g4.pool.elementsGot| == 4
      && r.Returned? && |r.pool.idle| == 1 && |r.pool.elementsGot| == 3
  {
    ScenarioWarmUp(p);
    ScenarioThreeGets(p, info);
    var g3 := Generate(Generate(Generate(p, info, true).pool, info, true).pool, info, true);
    ScenarioFourthGet(g3.pool, info);
  }

  /** Release() of an acquired, non-idle instance of a valid pool with room: one fewer acquired, one more idle. */
  lemma SelfReleaseShrinks(p: PoolState, x: Id)
    requires Valid(p) && x in p.elementsGot && p.objs[x].facet.originPool == Some(p.id)
    requires |p.idle| < p.config.maxSize
    ensures SelfRelease(p, x).Returned?
    ensures |SelfRelease(p, x).pool.elementsGot| == |p.elementsGot| - 1
    ensures |SelfRelease(p, x).pool.idle| == |p.idle| + 1
  {
    assert x !in p.idle;
    SelfReleaseReturns(p, x);
  }
}

=== FILE: pooled_object.dfy ===
/**
 * The pooled-object facet of a recyclable instance (Runtime/PooledObject.cs):
 * its lifecycle state, its info payload and the pool it returns to.
 * All three have private setters, so the operations below are the only
 * ways they change.
 */
module PooledObject {
  import opened Wrappers

  /** Identity of a backing ObjectPool<T> an object can be returned to. */
  type PoolId = nat

  /** Reference to an INFO payload (INFO is a class; `None` is null). */
  type InfoRef = nat

  /** Released is the first member, hence the default of a fresh object. */
  datatype State = Released | Got

  datatype Facet = Facet(state: State, info: Option<InfoRef>, originPool: Option<PoolId>)

  /** The facet of a freshly instantiated object: no field has been set. */
  function Initial(): (f: Facet)
    ensures f.state == Released
    ensures f.info == None && f.originPool == None
  {
    Facet(Released, None, None)
  }

  function ProvidePool(f: Facet, pool: Option<PoolId>): (r: Facet)
    ensures r.originPool == pool
    ensures r.state == f.state && r.info == f.info
  {
    f.(originPool := pool)
  }

  function ProvideInfo(f: Facet, info: Option<InfoRef>): (r: Facet)
    ensures r.info == info
    ensures r.state == f.state && r.originPool == f.originPool
  {
    f.(info := info)
  }

  function SetState(f: Facet, s: State): (r: Facet)
    ensures r.state == s
    ensures r.info == f.info && r.originPool == f.originPool
  {
    f.(state := s)
  }

  /** What the object's own Release() does once ResetValues has run. */
  datatype Disposal = ReturnTo(pool: PoolId) | Destroy

  /**
   * Release() returns the object to its recorded pool when there is one
   * and destroys it otherwise; it never touches the facet itself.
   */
  function Dispose(f: Facet): (d: Disposal)
    ensures d.ReturnTo? <==> f.originPool.Some?
    ensures d.ReturnTo? ==> d.pool == f.originPool.value
  {
    match f.originPool
    case Some(p) => ReturnTo(p)
    case None => Destroy
  }

  /** Providing the pool and the info touch disjoint fields. */
  lemma ProvidersCommute(f: Facet, pool: Option<PoolId>, info: Option<InfoRef>)
    ensures ProvideInfo(ProvidePool(f, pool), info) == ProvidePool(ProvideInfo(f, info), pool)
  {
  }

  /** Setting a state and then the previous one restores the facet. */
  lemma SetStateUndo(f: Facet, s: State)
    ensures SetState(SetState(f, s), f.state) == f
  {
  }
}

=== FILE: wrappers.dfy ===
/** Option and Result: a nullable reference and an operation that can fault. */
module Wrappers {

  /** `None` stands for a C# `null` reference. */
  datatype Option<+T> = None | Some(value: T)

  /** `Failure` stands for an exception thrown before the operation took effect. */
  datatype Result<+R, +E> = Success(value: R) | Failure(error: E)
}
